=== FILE: README.md ===
# Air-quality ingestion and index conversion, modelled in Dafny

This project models the logic core of an air-quality monitor that pulls
observations from the OpenAQ sensor network into a local store, and shows
them as an air-quality index (AQI). It covers four parts:

- **PM2.5 → AQI conversion** (`aqi.dfy`, module `Aqi`). A missing
  concentration gives the "No Data" sentinel. Otherwise the first of seven
  simplified US EPA PM2.5 breakpoints whose closed interval holds the value
  is interpolated linearly, inputs above 500.4 are capped at 500, and
  anything unmatched falls back to its own value. The result is rounded
  half-up (`Math.round` as `(x + 0.5).Floor`) and named by the band table,
  whose last row is the catch-all.
- **Worst-station gauge** (`gauge.dfy`, module `Gauge`). A max-reduction
  over the stations' indices that starts at 0, skips stations without
  PM2.5 and keeps the first station reaching the maximum (strict `>`).
- **Ingestion run** (`ingest.dfy`, module `Ingest`). It matches an
  external location to a station: exact case-insensitive name first, then
  "station name contains the query", then the nearest station within
  2.0 km. It builds the sensor-id → parameter map and folds the latest
  observations into one value per parameter plus the latest time. It then
  picks PM2.5 (key `"pm2.5"` before `"pm25"`), PM10 and NO2, sanitises each
  value to [0, 2000], and decides whether the reading is inserted.
- **Station directory import** (`import_stations.dfy`, module
  `ImportStations`). A walk over pages of external locations. A location
  without truthy coordinates is skipped. A name that already exists
  (exact, case-sensitive) is counted as skipped. Any other location is
  inserted with provenance tag `"OpenAQ:" + id` and counted as inserted.
  Paging stops at the first failed or empty page, or after page 20.

Shared pieces: `wrappers.dfy` (`Option`), `sequences.dfy` (`FindFirst`, the
"first row that matches" search used by `Array.find` and `LIMIT 1`),
`text.dfy` (ASCII lower-casing, substring test, decimal notation) and
`stations.dfy` (the `Station` row and name uniqueness).

Everything the source does over the network or against the database is an
input to the model. This covers the location list of a city, each
location's latest observations, each page of the import, and whether a
store query or insert succeeds. The store's tables are sequences. A lookup
returns the position of the row in table order. The great-circle distance
is a function parameter. Concentrations are exact `real`s and times are
integer milliseconds.

The model follows what the code does, including where it differs from what one might expect:

- Partial name matching is only "station name contains the query", never the reverse.
- `LIMIT 1` has no `ORDER BY`, so the first row in table order is taken. No lowest-id tie-break is applied.
- The insert gate tests the raw values, so a reading whose every value sanitises to `null` is still stored (`Ingest.GateUsesRawValues`).
- The directory import deduplicates by exact name only, with no distance threshold.
- Ingestion is sequential, with no batches and no per-run counters.
- Within one location, a parameter's value comes from the last matching observation in the list, but `lastUpdated` is the newest time among them. The stored value and the stored time can therefore come from different observations (`Ingest.ValueAndTimeFromDifferentObservations`).
- Locations are not deduplicated by station. Two locations that resolve to the same station each store their own reading for it (`Ingest.SameStationTwice`).
- Non-negative concentrations inside the table's range can go unmatched: the gaps between breakpoints (12.0–12.1, 35.4–35.5, …) take the fallback. For example, 12.05 gives index 12 while 12.0 gives 50 (`Aqi.GapBreaksMonotonicity`).

## Model

| member | source | states |
|---|---|---|
| `Aqi.Pm25ToAqi` | frontend/aqi-monitor/src/lib/aqi.js:16-53 | A missing concentration gives exactly `aqi "-"`, band "No Data", colour "#333333", and only a missing one does. A present one gives a numeric index whose band and colour are those of the band-table row holding that index. |
| `Aqi.BandOf` | frontend/aqi-monitor/src/lib/aqi.js:46 | The band found is a row of the table. For an index in [0, 9999] it is a row whose range holds the index. Below 0 or above 9999 it is the last row, "Hazardous". |
| `Aqi.BandsPartition` | frontend/aqi-monitor/src/lib/aqi.js:3-10 | Every integer in [0, 9999] lies in exactly one band row. |
| `Aqi.BreakpointsOrdered` | frontend/aqi-monitor/src/lib/aqi.js:20-28 | The breakpoint table starts at 0.0. Each interval is non-empty and maps into index 0..500. Both columns strictly increase from row to row. |
| `Sequences.FindFirst` | frontend/aqi-monitor/src/lib/aqi.js:33 | The search returns the first position satisfying the predicate, or none exactly when no element satisfies it. |
| `Aqi.Locate` | frontend/aqi-monitor/src/lib/aqi.js:33 | The breakpoint found covers the concentration. None is found exactly when no breakpoint covers it. |
| `Aqi.LocateUnique` | frontend/aqi-monitor/src/lib/aqi.js:20-33 | The intervals are pairwise disjoint: a concentration covered by breakpoint i is located at i and nowhere else. |
| `Aqi.InterpolateBounds` | frontend/aqi-monitor/src/lib/aqi.js:36 | For a concentration inside its interval, the interpolated and rounded index lies in [iLow, iHigh]. |
| `Aqi.EndpointsExact` | frontend/aqi-monitor/src/lib/aqi.js:33-43 | At each breakpoint's cLow the index is exactly iLow, and at its cHigh exactly iHigh (12.0 → 50, 35.4 → 100, …). |
| `Aqi.MonotoneWithinBreakpoint` | frontend/aqi-monitor/src/lib/aqi.js:33-43 | Within one breakpoint's closed interval, a larger concentration never gets a smaller index. |
| `Aqi.CappedAbove` | frontend/aqi-monitor/src/lib/aqi.js:37-38 | Any concentration above 500.4 gives index 500, band "Hazardous", colour "#7e0023". |
| `Aqi.FallbackWhenUncovered` | frontend/aqi-monitor/src/lib/aqi.js:39-40 | A concentration that no breakpoint covers and that is not above 500.4 gets its own value, rounded, as the index. |
| `Aqi.GapBreaksMonotonicity` | frontend/aqi-monitor/src/lib/aqi.js:20-43 | 12.0 gives 50 but 12.05 falls in the gap between the first two intervals and gives 12, band "Good". |
| `Aqi.NegativeIsHazardous` | frontend/aqi-monitor/src/lib/aqi.js:39-46 | A concentration below -0.5 keeps its rounded negative value as the index. No band holds it, so it is labelled "Hazardous". |
| `Aqi.IndexOf` | frontend/aqi-monitor/src/lib/aqi.js:33-43 | Every non-negative concentration gets an index in [0, 500]: interpolated values stay inside their breakpoint's index range, and both the cap and the fallback stay within the table. |
| `Aqi.UnroundedInRange` | frontend/aqi-monitor/src/lib/aqi.js:33-43 | The case analysis behind the range: a covering breakpoint, the cap above 500.4, or the fallback between 0 and 500.4. |
| `Aqi.AqiColorFromPm25` | frontend/aqi-monitor/src/lib/aqi.js:55-57 | The colour is the `color` of the full conversion. It is "#333333" for a missing value, and otherwise a colour of the band table. |
| `Gauge.AqiOf` | frontend/aqi-monitor/src/ui/Gauge.jsx:11-13 | A station with a reading converts to a numeric index, never the "-" placeholder. |
| `Gauge.Scan` | frontend/aqi-monitor/src/ui/Gauge.jsx:7-18 | The maximum is the largest of 0 and every reported station's index. A station is chosen exactly when that maximum is positive. The chosen station has a reading attaining the maximum, and every earlier station is strictly below it. |
| `Gauge.UnreportedIgnored` | frontend/aqi-monitor/src/ui/Gauge.jsx:10-11 | Inserting a station without PM2.5 anywhere in the list changes neither the maximum nor the chosen station. |
| `Gauge.Render` | frontend/aqi-monitor/src/ui/Gauge.jsx:7-28 | "No Data Available" is shown exactly when no station has a positive index, including the empty list. Otherwise the card shows the maximum index, the name of the first station reaching that maximum (every earlier station is strictly lower), and the band and colour of that station's conversion, which are the band of the shown index. |
| `Gauge.CleanAirShowsNoData` | frontend/aqi-monitor/src/ui/Gauge.jsx:7-13 | A single station reading 0.0 µg/m³ has index 0, so the card shows "No Data Available". |
| `Ingest.ExactIsPartial` | backend/ingest.js:41-53 | A case-insensitive exact match is also a partial match. |
| `Ingest.FindStationByName` | backend/ingest.js:37-57 | If some station matches the name exactly (case-insensitively), the first such station is returned. Otherwise the first station whose lower-cased name contains the lower-cased query is returned. Nothing is returned exactly when no station's name contains the query. |
| `Ingest.Closest` | backend/ingest.js:64-73 | The scan returns a station at minimal distance, and every earlier station is strictly farther (ties keep the earliest). |
| `Ingest.FindNearestStation` | backend/ingest.js:59-76 | The result is the first closest station when it lies within `maxKm` (inclusive). Nothing is returned exactly when every station is farther than `maxKm`, which includes the empty table. |
| `Ingest.ResolveStation` | backend/ingest.js:128-139 | When the location has a non-empty name that some station name contains, the name match decides. Without a name match and with both coordinates present, the result is the nearest station within 2.0 km, the earliest of equally near ones. A station returned without a name match lies within 2.0 km and both coordinates are present. Nothing is returned exactly when no name match exists and either a coordinate is missing or every station is beyond 2.0 km. |
| `Ingest.SensorMapKeys` | backend/ingest.js:144-151 | The map's ids are exactly the ids of sensors with a non-zero id and a non-empty parameter name. |
| `Ingest.SensorMapValues` | backend/ingest.js:144-151 | Each id maps to the lower-cased parameter name of the last such sensor with that id. |
| `Ingest.ReduceTime` | backend/ingest.js:164-176 | `lastUpdated` is at least 0 and at least every contributing observation's time. When positive, it is the time of some contributing observation. |
| `Ingest.ReduceKeys` | backend/ingest.js:166-176 | A parameter has a value exactly when some observation has a mapped sensor and a value that is not `undefined`. |
| `Ingest.ValueAndTimeFromDifferentObservations` | backend/ingest.js:166-175 | Two observations of PM2.5, the first at time 2000 with 10.0 and the second at time 1000 with 20.0, reduce to the value 20.0 with `lastUpdated` 2000. |
| `Ingest.ReduceValues` | backend/ingest.js:166-176 | A parameter's value is that of the last contributing observation for it, so later observations overwrite earlier ones, a `null` included. |
| `Ingest.FirstNumber` | backend/ingest.js:178-180 | The `??` chain yields the first operand holding a number. It yields `null` only when neither operand holds one. |
| `Ingest.Pm25KeyPreference` | backend/ingest.js:178 | With numbers under both keys, "pm2.5" wins. "pm25" is used when "pm2.5" is absent or `null`. |
| `Ingest.Sanitize` | backend/ingest.js:187-193 | The result is present exactly when the input is a number in [0, 2000], and then it is the input unchanged. |
| `Ingest.SanitizeIdempotent` | backend/ingest.js:187-193 | Sanitising twice is the same as sanitising once. |
| `Ingest.TimestampOf` | backend/ingest.js:185 | The stored time is `lastUpdated` when that is after the epoch, and exactly the current time otherwise. |
| `Ingest.ReadingFor` | backend/ingest.js:195-200 | A reading is produced exactly when at least one raw value (PM2.5, PM10, NO2) is present. It carries the station id, the sanitised values and the chosen timestamp. |
| `Ingest.GateUsesRawValues` | backend/ingest.js:195-197 | A location whose only value is PM2.5 above 2000 still yields a stored reading, with every pollutant `null`. |
| `Ingest.ProcessLocation` | backend/ingest.js:122-201 | An unmatched location, a failed or payload-less latest fetch, or a failed insert stores nothing. A stored reading belongs to the resolved station and is the gate's reading for that location's reduced observations. Conversely, a matched location whose latest fetch returns results and whose insert succeeds stores exactly that gate reading, timestamped with the location's own clock reading. |
| `Ingest.ProcessedIsWellFormed` | backend/ingest.js:187-197 | Any reading a location stores names a station of the table and holds only values in [0, 2000] or `null`. |
| `Ingest.IngestLocations` | backend/ingest.js:122-201 | Walking a city's locations stores at most one reading per location, each well-formed. |
| `Ingest.IngestContents` | backend/ingest.js:122-201 | Every reading a location stores appears in the city's walk, and every reading in the walk is one that some location stores. |
| `Ingest.IngestMultiplicity` | backend/ingest.js:122-201 | Each reading appears in the walk exactly as many times as there are locations that store it, so two locations storing the same reading give two rows. |
| `Ingest.SameStationTwice` | backend/ingest.js:122-201 | Two consecutive storing locations that resolve to the same station each append their own reading for it, in order, and nothing is merged. |
| `Ingest.NothingStoredIff` | backend/ingest.js:122-201 | A city's walk stores nothing exactly when no single location stores a reading. |
| `Ingest.FailedLocationIsolated` | backend/ingest.js:153-161 | A location whose latest-measurements fetch fails stores nothing. Inserting one anywhere in the run leaves the other locations' readings exactly as they were. |
| `Ingest.IngestCity` | backend/ingest.js:99-209 | A city whose location fetch fails or returns no list stores nothing. Otherwise it stores at most one well-formed reading per location. |
| `Ingest.CityContents` | backend/ingest.js:99-209 | A listed city stores nothing exactly when no location stores a reading. Its readings are exactly those its locations store: each stored reading appears, and nothing else does. A city without a list stores none. |
| `Ingest.RunIngestOnce` | backend/ingest.js:213-219 | A run over the cities stores at most one well-formed reading per listed location. |
| `Ingest.RunContents` | backend/ingest.js:213-219 | Every reading stored by a location of any listed city appears in the run, and every reading of the run comes from such a location. |
| `Ingest.RunMultiplicity` | backend/ingest.js:213-219 | Each reading appears in the run exactly as many times as there are locations, across all listed cities, that store it. |
| `Ingest.FailedCityIsolated` | backend/ingest.js:202-219 | A city whose location list cannot be fetched, inserted anywhere among the cities, leaves the run's readings exactly as they were. |
| `Text.DecimalRoundTrip` | backend/importStations.js:51 | Reading back the decimal notation of a natural number gives the number. |
| `ImportStations.ProvenanceRoundTrip` | backend/importStations.js:51 | The tag `"OpenAQ:" + id` parses back to `id`. |
| `ImportStations.ProvenanceInjective` | backend/importStations.js:51 | Different external ids never get the same tag. |
| `ImportStations.ImportOne` | backend/importStations.js:49-77 | A location with a falsy latitude or longitude, or whose store queries fail, changes nothing. A location whose name exists increments only the skipped count. Any other location appends exactly one row with the `OpenAQ:` tag of its id and increments only the inserted count. Existing rows are never changed, and unique names stay unique. |
| `ImportStations.ImportPage` | backend/importStations.js:34-78 | Over a page, the table only grows at its end and by exactly the number inserted. Unique names stay unique, and inserted plus skipped grows by at most the number of locations. It grows by exactly the number of eligible locations (both coordinates truthy, store queries succeeding), and every eligible location's name is in the table afterwards. |
| `ImportStations.RepeatedNameSkipped` | backend/importStations.js:61-74 | A new name seen twice on a page is inserted once and skipped once. |
| `ImportStations.Import` | backend/importStations.js:14-84 | Between 1 and 20 pages are fetched. Every page before the last fetched one was non-empty. Stopping before page 20 means the last page failed or was empty. The run keeps the prefix, uniqueness and counter properties above, measured against all locations on the fetched pages. Inserted plus skipped grows by exactly the number of eligible locations on the fetched pages, and every eligible location on a fetched page has its name in the table afterwards. |

## Left out

- The haversine body (backend/ingest.js:24-33) is floating-point trigonometry. Distance is a parameter, and neither symmetry nor zero distance is claimed.
- Floating point in general: concentrations are exact rationals, so the model says nothing about rounding errors in the interpolation.
- `parseFloat`/`Number` coercion and `NaN`: values arrive as numbers or are absent. Non-numeric strings and `NaN` readings are not modelled.
- `Date` parsing: times are integer milliseconds. Invalid dates, and a missing `datetime` that would throw and abort the city, are not modelled.
- SQL details: `LOWER` is modelled on ASCII letters only. `%` and `_` inside a name are not treated as `LIKE` wildcards. `LIMIT 1` is taken as the first row in table order. The store's `SERIAL` id is `Progress.nextId`.
- Store failures during matching: the station queries of backend/ingest.js:37-76 always succeed in the model. In the source, a failure there aborts the rest of that city.
- A location whose `sensors` field is not an array is modelled as one with an empty sensor list. A `null` import location name is not modelled.
- HTTP and configuration: URLs, API keys, timeouts, `OPENAQ_LIMIT`, the `CITY_COORDINATES` choice of query and the 1000-row page size only shape the requests. Their outcomes are inputs.
- The clock: `new Date()` is read separately for each location (backend/ingest.js:185). Each `LocationRun` carries its own reading `now` as an input, so two locations may get different fallback times.
- Scheduling (`node-cron`), `dotenv`, logging and `process.exit` have no effect on the stored data.
- The JSX of Gauge.jsx beyond the data it shows, the other UI components, backend/server.js and the debug scripts are presentation, read-only routes or one-off probes.
- The code ingests sequentially and keeps no per-run accepted, skipped or errored counters, so the model has none either.

=== FILE: aqi.dfy ===
/** PM2.5 concentration (µg/m³) to air-quality index, after the simplified
    US EPA PM2.5 breakpoints: a table-driven piecewise-linear map, a cap
    above the top breakpoint, a fallback for unmatched inputs, half-up
    rounding and a second table that names the band of the index. */
module Aqi {
  import opened Wrappers
  import opened Sequences

  /** A row of the band table: the closed integer range [min, max]. */
  datatype Band = Band(min: int, max: int, name: string, color: string)

  const Bands: seq<Band> := [
    Band(0, 50, "Good", "#55a84f"),
    Band(51, 100, "Moderate", "#ffd23f"),
    Band(101, 150, "Unhealthy for Sensitive Groups", "#ff9933"),
    Band(151, 200, "Unhealthy", "#ff5a5f"),
    Band(201, 300, "Very Unhealthy", "#7e0023"),
    Band(301, 9999, "Hazardous", "#7e0023")
  ]

  /** The catch-all band: the last row of the table. */
  const Hazardous: Band := Bands[|Bands| - 1]

  /** A breakpoint maps the closed concentration interval [cLow, cHigh]
      linearly onto the index interval [iLow, iHigh]. */
  datatype Breakpoint = Breakpoint(cLow: real, cHigh: real, iLow: int, iHigh: int)

  const Breakpoints: seq<Breakpoint> := [
    Breakpoint(0.0, 12.0, 0, 50),
    Breakpoint(12.1, 35.4, 51, 100),
    Breakpoint(35.5, 55.4, 101, 150),
    Breakpoint(55.5, 150.4, 151, 200),
    Breakpoint(150.5, 250.4, 201, 300),
    Breakpoint(250.5, 350.4, 301, 400),
    Breakpoint(350.5, 500.4, 401, 500)
  ]

  /** Concentrations strictly above this are capped at `CapIndex`. */
  const CapConcentration: real := 500.4
  const CapIndex: int := 500

  /** The `aqi` field: the placeholder "-" or a number. */
  datatype Index = Dash | Value(n: int)

  datatype AqiResult = AqiResult(aqi: Index, band: string, color: string)

  /** What a missing concentration converts to. */
  const NoData: AqiResult := AqiResult(Dash, "No Data", "#333333")

  /** JavaScript's `Math.round`: halves round towards +infinity. */
  function Round(x: real): int {
    (x + 0.5).Floor
  }

  predicate Covers(b: Breakpoint, c: real) {
    b.cLow <= c <= b.cHigh
  }

  /** The breakpoint table is strictly increasing in both columns and
      stays within index 0..500. */
  lemma BreakpointsOrdered()
    ensures forall i :: 0 <= i < |Breakpoints| ==>
      Breakpoints[i].cLow < Breakpoints[i].cHigh &&
      0 <= Breakpoints[i].iLow <= Breakpoints[i].iHigh <= CapIndex &&
      Breakpoints[i].cHigh <= CapConcentration
    ensures Breakpoints[0].cLow == 0.0
    ensures forall i, j :: 0 <= i < j < |Breakpoints| ==>
      Breakpoints[i].cHigh < Breakpoints[j].cLow && Breakpoints[i].iHigh < Breakpoints[j].iLow
  {
  }

  function Interpolate(b: Breakpoint, c: real): real
    requires b.cLow < b.cHigh
  {
    (b.iHigh - b.iLow) as real / (b.cHigh - b.cLow) * (c - b.cLow) + b.iLow as real
  }

  /** Position of the first breakpoint whose interval holds `c`. */
  function Locate(c: real): (r: Option<nat>)
    ensures r.Some? ==> r.value < |Breakpoints| && Covers(Breakpoints[r.value], c)
    ensures r.None? <==> forall i :: 0 <= i < |Breakpoints| ==> !Covers(Breakpoints[i], c)
  {
    FindFirst(Breakpoints, b => Covers(b, c))
  }

  /** The index before rounding: interpolated, capped, or the raw value. */
  function Unrounded(c: real): real {
    match Locate(c)
    case Some(i) =>
      BreakpointsOrdered();
      Interpolate(Breakpoints[i], c)
    case None =>
      if c > CapConcentration then CapIndex as real else c
  }

  /** The band an index belongs to; the last band when none holds it. */
  function BandOf(n: int): (b: Band)
    ensures b in Bands
    ensures 0 <= n <= 9999 ==> b.min <= n <= b.max
    ensures n < 0 || n > 9999 ==> b == Hazardous
  {
    match FindFirst(Bands, (b: Band) => b.min <= n <= b.max)
    case Some(k) => Bands[k]
    case None => Hazardous
  }

  /** The rounded index of a present concentration; a non-negative
      concentration always lands in [0, 500]. */
  function IndexOf(c: real): (n: int)
    ensures 0.0 <= c ==> 0 <= n <= CapIndex
  {
    UnroundedInRange(c);
    Round(Unrounded(c))
  }

  function Pm25ToAqi(pm25: Option<real>): (r: AqiResult)
    ensures pm25.None? <==> r == NoData
    ensures pm25.Some? ==> r.aqi.Value?
    ensures r.aqi.Value? ==> r.band == BandOf(r.aqi.n).name && r.color == BandOf(r.aqi.n).color
  {
    match pm25
    case None => NoData
    case Some(c) =>
      var n := IndexOf(c);
      var b := BandOf(n);
      AqiResult(Value(n), b.name, b.color)
  }

  function AqiColorFromPm25(pm25: Option<real>): (color: string)
    ensures pm25.None? ==> color == "#333333"
    ensures pm25.Some? ==> exists k :: 0 <= k < |Bands| && color == Bands[k].color
    ensures color == Pm25ToAqi(pm25).color
  {
    Pm25ToAqi(pm25).color
  }

  // ---------- rounding ----------

  lemma RoundMonotone(x: real, y: real)
    requires x <= y
    ensures Round(x) <= Round(y)
  {
  }

  lemma RoundOfInteger(k: int)
    ensures Round(k as real) == k
  {
  }

  // ---------- interpolation ----------

  /** Within its own interval a breakpoint's interpolation rounds into
      [iLow, iHigh]. */
  lemma InterpolateBounds(b: Breakpoint, c: real)
    requires b.cLow < b.cHigh && b.iLow <= b.iHigh && Covers(b, c)
    ensures b.iLow <= Round(Interpolate(b, c)) <= b.iHigh
  {
    InterpolateEndpoints(b);
    InterpolateMonotone(b, b.cLow, c);
    InterpolateMonotone(b, c, b.cHigh);
    RoundOfInteger(b.iLow);
    RoundOfInteger(b.iHigh);
    RoundMonotone(b.iLow as real, Interpolate(b, c));
    RoundMonotone(Interpolate(b, c), b.iHigh as real);
  }

  lemma InterpolateEndpoints(b: Breakpoint)
    requires b.cLow < b.cHigh
    ensures Interpolate(b, b.cLow) == b.iLow as real
    ensures Interpolate(b, b.cHigh) == b.iHigh as real
  {
  }

  lemma InterpolateMonotone(b: Breakpoint, c1: real, c2: real)
    requires b.cLow < b.cHigh && b.iLow <= b.iHigh && c1 <= c2
    ensures Interpolate(b, c1) <= Interpolate(b, c2)
  {
  }

  // ---------- properties of the conversion ----------

  /** The breakpoint intervals are pairwise disjoint: a covered value is
      found at the one breakpoint that covers it. */
  lemma LocateUnique(c: real, i: nat)
    requires i < |Breakpoints| && Covers(Breakpoints[i], c)
    ensures Locate(c) == Some(i)
  {
  }

  /** The index is exactly iLow at each cLow and exactly iHigh at each
      cHigh (12.0 gives 50, 35.4 gives 100). */
  lemma {:induction false} EndpointsExact(i: nat)
    requires i < |Breakpoints|
    ensures Pm25ToAqi(Some(Breakpoints[i].cLow)).aqi == Value(Breakpoints[i].iLow)
    ensures Pm25ToAqi(Some(Breakpoints[i].cHigh)).aqi == Value(Breakpoints[i].iHigh)
  {
    BreakpointsOrdered();
    var b := Breakpoints[i];
    LocateUnique(b.cLow, i);
    LocateUnique(b.cHigh, i);
    InterpolateEndpoints(b);
    RoundOfInteger(b.iLow);
    RoundOfInteger(b.iHigh);
  }

  /** Inside one breakpoint's closed interval the index never decreases as
      the concentration grows. */
  lemma MonotoneWithinBreakpoint(i: nat, c1: real, c2: real)
    requires i < |Breakpoints|
    requires Covers(Breakpoints[i], c1) && Covers(Breakpoints[i], c2) && c1 <= c2
    ensures IndexOf(c1) <= IndexOf(c2)
  {
    BreakpointsOrdered();
    LocateUnique(c1, i);
    LocateUnique(c2, i);
    InterpolateMonotone(Breakpoints[i], c1, c2);
    RoundMonotone(Interpolate(Breakpoints[i], c1), Interpolate(Breakpoints[i], c2));
  }

  /** Above 500.4 the index is capped at 500, in the "Hazardous" band. */
  lemma CappedAbove(c: real)
    requires c > CapConcentration
    ensures Pm25ToAqi(Some(c)) == AqiResult(Value(CapIndex), "Hazardous", "#7e0023")
  {
    BreakpointsOrdered();
    assert Locate(c).None?;
    RoundOfInteger(CapIndex);
  }

  /** A concentration no breakpoint covers and not above the cap keeps its
      own value, rounded, as the index. */
  lemma FallbackWhenUncovered(c: real)
    requires forall i :: 0 <= i < |Breakpoints| ==> !Covers(Breakpoints[i], c)
    requires c <= CapConcentration
    ensures Pm25ToAqi(Some(c)).aqi == Value(Round(c))
  {
  }

  /** The gap between 12.0 and 12.1 is not covered: 12.05 takes the
      fallback and reads 12, below the 50 that 12.0 reads, so the index is
      not monotone across the table. */
  lemma GapBreaksMonotonicity()
    ensures Pm25ToAqi(Some(12.0)).aqi == Value(50)
    ensures Pm25ToAqi(Some(12.05)).aqi == Value(12)
    ensures Pm25ToAqi(Some(12.05)).band == "Good"
  {
    assert Pm25ToAqi(Some(12.0)).aqi == Value(50) by {
      EndpointsExact(0);
    }
    assert Pm25ToAqi(Some(12.05)).aqi == Value(12) && Pm25ToAqi(Some(12.05)).band == "Good" by {
      BreakpointsOrdered();
      FallbackWhenUncovered(12.05);
    }
  }

  /** A negative concentration takes the fallback; once it rounds below 0
      no band holds it and it is labelled "Hazardous". */
  lemma NegativeIsHazardous(c: real)
    requires c < -0.5
    ensures Pm25ToAqi(Some(c)).aqi == Value(Round(c))
    ensures Round(c) < 0
    ensures Pm25ToAqi(Some(c)).band == "Hazardous"
  {
  }

  /** Every non-negative concentration gets an index in [0, 500]. */
  lemma UnroundedInRange(c: real)
    ensures 0.0 <= c ==> 0 <= Round(Unrounded(c)) <= CapIndex
  {
    if 0.0 <= c {
      BreakpointsOrdered();
      match Locate(c)
      case Some(i) =>
        InterpolateBounds(Breakpoints[i], c);
      case None =>
        if c > CapConcentration {
          RoundOfInteger(CapIndex);
        } else {
          RoundMonotone(0.0, c);
          RoundMonotone(c, CapConcentration);
          RoundOfInteger(0);
        }
    }
  }

  /** The band table's ranges are increasing and do not overlap. */
  lemma BandsOrdered()
    ensures forall i, j :: 0 <= i < j < |Bands| ==> Bands[i].max < Bands[j].min
  {
  }

  /** Every index in [0, 9999] lies in exactly one band. */
  lemma BandsPartition(n: int)
    requires 0 <= n <= 9999
    ensures exists k :: 0 <= k < |Bands| && Bands[k].min <= n <= Bands[k].max
    ensures forall k1, k2 ::
      (0 <= k1 < |Bands| && 0 <= k2 < |Bands| &&
       Bands[k1].min <= n <= Bands[k1].max && Bands[k2].min <= n <= Bands[k2].max) ==> k1 == k2
  {
    BandsOrdered();
    var b := BandOf(n);
    var k :| 0 <= k < |Bands| && Bands[k] == b;
  }
}

=== FILE: gauge.dfy ===
/** The "Worst Air Quality" gauge: a max-reduction over the stations'
    PM2.5 indices that remembers the first station reaching the maximum. */
module Gauge {
  import opened Wrappers
  import opened Aqi

  /** The part of a station the gauge looks at. */
  datatype GaugeStation = GaugeStation(name: string, pm25: Option<real>)

  /** Running state of the scan: the largest index seen (starting at 0)
      and the position of the station that set it. */
  datatype Tally = Tally(maxAqi: int, worst: Option<nat>)

  /** What the card shows. */
  datatype View =
    | NoDataAvailable
    | Worst(aqi: int, band: string, color: string, stationName: string)

  /** The index of a station with a reading; it is never the "-"
      placeholder, so the source's `aqi !== "-"` test always passes. */
  function AqiOf(s: GaugeStation): (n: int)
    requires s.pm25.Some?
    ensures Pm25ToAqi(s.pm25).aqi == Value(n)
  {
    IndexOf(s.pm25.value)
  }

  /** The station has no reading, or its index under `index` is at most
      `bound`. */
  predicate AtMost(s: GaugeStation, index: real -> int, bound: int) {
    s.pm25.Some? ==> index(s.pm25.value) <= bound
  }

  /** The scan over `stations` in order, ranking readings by `index`; a
      station replaces the current worst only when its index is strictly
      larger. The gauge ranks by `IndexOf`; the scan is stated for any
      ranking so that its proof does not depend on the conversion table. */
  function Scan(stations: seq<GaugeStation>, index: real -> int): (t: Tally)
    ensures 0 <= t.maxAqi
    ensures forall i :: 0 <= i < |stations| ==> AtMost(stations[i], index, t.maxAqi)
    ensures t.worst.None? <==> t.maxAqi == 0
    ensures t.worst.Some? ==>
      && t.worst.value < |stations|
      && stations[t.worst.value].pm25.Some?
      && index(stations[t.worst.value].pm25.value) == t.maxAqi
      && forall j :: 0 <= j < t.worst.value ==> AtMost(stations[j], index, t.maxAqi - 1)
    decreases |stations|
  {
    if |stations| == 0 then Tally(0, None)
    else
      var t := Scan(stations[..|stations| - 1], index);
      var s := stations[|stations| - 1];
      if s.pm25.Some? && index(s.pm25.value) > t.maxAqi then
        Tally(index(s.pm25.value), Some(|stations| - 1))
      else
        t
  }

  /** Station `w` has a reading whose index is `aqi`, and every station
      before it is strictly lower. */
  predicate FirstWorst(stations: seq<GaugeStation>, w: int, aqi: int) {
    && 0 <= w < |stations| && stations[w].pm25.Some?
    && AqiOf(stations[w]) == aqi
    && forall j :: 0 <= j < w ==> AtMost(stations[j], IndexOf, aqi - 1)
  }

  /** The card: nothing chosen means "No Data Available"; otherwise the
      worst index with the band and colour of the worst station's reading. */
  function Render(stations: seq<GaugeStation>): (v: View)
    ensures v.NoDataAvailable? <==> forall i :: 0 <= i < |stations| ==> AtMost(stations[i], IndexOf, 0)
    ensures v.Worst? ==> forall i :: 0 <= i < |stations| ==> AtMost(stations[i], IndexOf, v.aqi)
    ensures v.Worst? ==> exists w ::
      && FirstWorst(stations, w, v.aqi)
      && v.stationName == stations[w].name
      && v.band == Pm25ToAqi(stations[w].pm25).band && v.color == Pm25ToAqi(stations[w].pm25).color
    ensures v.Worst? ==> v.band == BandOf(v.aqi).name && v.color == BandOf(v.aqi).color
  {
    var t := Scan(stations, IndexOf);
    match t.worst
    case None => NoDataAvailable
    case Some(w) =>
      var r := Pm25ToAqi(stations[w].pm25);
      Worst(t.maxAqi, r.band, r.color, stations[w].name)
  }

  /** Stations without a reading never change the result. */
  lemma {:induction false} UnreportedIgnored(stations: seq<GaugeStation>, index: real -> int, name: string, k: nat)
    requires k <= |stations|
    ensures var withNone := stations[..k] + [GaugeStation(name, None)] + stations[k..];
      var a, b := Scan(withNone, index), Scan(stations, index);
      && a.maxAqi == b.maxAqi
      && a.worst.None? == b.worst.None?
      && (a.worst.Some? ==> withNone[a.worst.value] == stations[b.worst.value])
    decreases |stations|
  {
    var withNone := stations[..k] + [GaugeStation(name, None)] + stations[k..];
    if k == |stations| {
      assert withNone[..|withNone| - 1] == stations;
    } else {
      var n := |stations|;
      assert withNone[..|withNone| - 1] == stations[..n - 1][..k] + [GaugeStation(name, None)] + stations[..n - 1][k..];
      assert withNone[|withNone| - 1] == stations[n - 1];
      assert stations[..n - 1][..k] == stations[..k];
      UnreportedIgnored(stations[..n - 1], index, name, k);
    }
  }

  /** Clean air reads as missing data: a single station whose index is 0
      leaves nothing chosen. */
  lemma CleanAirShowsNoData(name: string)
    ensures Render([GaugeStation(name, Some(0.0))]) == NoDataAvailable
  {
  }
}

=== FILE: import_stations.dfy ===
/** The station directory import: pages of external locations are walked in
    order, and each location with both coordinates is inserted into the
    station table unless a station with exactly its name already exists. */
module ImportStations {
  import opened Wrappers
  import opened Text
  import opened Stations

  /** The provenance tag of an imported station is this prefix followed by
      the external location id. */
  const ProvenancePrefix: string := "OpenAQ:"

  /** The import never fetches more pages than this. */
  const MaxPages: nat := 20

  datatype ExternalLocation = ExternalLocation(id: nat, name: string, lat: Option<real>, lon: Option<real>)

  /** A location together with whether the store's queries for it succeed. */
  datatype Attempt = Attempt(loc: ExternalLocation, storeOk: bool)

  /** Outcome of fetching one page of locations. */
  datatype PageFetch = PageFailed | Page(attempts: seq<Attempt>)

  /** The station table and the two counters. `nextId` is the id the store
      gives the next inserted row. */
  datatype Progress = Progress(table: seq<Station>, inserted: nat, skipped: nat, nextId: int)

  /** JavaScript truthiness of a coordinate: present and not zero. */
  predicate Truthy(x: Option<real>) {
    x.Some? && x.value != 0.0
  }

  function Provenance(id: nat): string {
    ProvenancePrefix + NatToDecimal(id)
  }

  /** Reads the external id back out of a provenance tag. */
  function ParseProvenance(tag: string): Option<nat> {
    var n := |ProvenancePrefix|;
    if |tag| > n && tag[..n] == ProvenancePrefix && AllDigits(tag[n..]) then
      Some(DecimalValue(tag[n..]))
    else None
  }

  /** The tag records the external id: parsing it gives the id back. */
  lemma ProvenanceRoundTrip(id: nat)
    ensures ParseProvenance(Provenance(id)) == Some(id)
  {
    var tag := Provenance(id);
    var n := |ProvenancePrefix|;
    assert tag[..n] == ProvenancePrefix;
    assert tag[n..] == NatToDecimal(id);
    DecimalRoundTrip(id);
  }

  /** Distinct external ids get distinct tags. */
  lemma ProvenanceInjective(a: nat, b: nat)
    requires Provenance(a) == Provenance(b)
    ensures a == b
  {
    ProvenanceRoundTrip(a);
    ProvenanceRoundTrip(b);
  }

  /** The row a location is inserted as. */
  function NewStation(p: Progress, loc: ExternalLocation): Station
    requires loc.lat.Some? && loc.lon.Some?
  {
    Station(p.nextId, loc.name, loc.lat.value, loc.lon.value, Provenance(loc.id))
  }

  /** One location: skipped silently without both coordinates or when the
      store fails, counted as skipped when its name exists, otherwise
      inserted and counted. Existing rows are never changed. */
  function ImportOne(p: Progress, a: Attempt): (r: Progress)
    ensures p.table <= r.table && |r.table| <= |p.table| + 1
    ensures UniqueNames(p.table) ==> UniqueNames(r.table)
    ensures r.inserted - p.inserted == |r.table| - |p.table|
    ensures r.skipped - p.skipped + r.inserted - p.inserted <= 1
    ensures p.skipped <= r.skipped
    ensures !Truthy(a.loc.lat) || !Truthy(a.loc.lon) || !a.storeOk ==> r == p
    ensures HasName(p.table, a.loc.name) ==> r.table == p.table
    ensures Truthy(a.loc.lat) && Truthy(a.loc.lon) && a.storeOk ==>
      if HasName(p.table, a.loc.name) then r == p.(skipped := p.skipped + 1)
      else |r.table| == |p.table| + 1 && r.skipped == p.skipped
    ensures |r.table| > |p.table| ==>
      && a.loc.lat.Some? && a.loc.lon.Some?
      && r.table == p.table + [NewStation(p, a.loc)]
      && ParseProvenance(r.table[|p.table|].source) == Some(a.loc.id)
  {
    var loc := a.loc;
    if !Truthy(loc.lat) || !Truthy(loc.lon) then p
    else if !a.storeOk then p
    else if HasName(p.table, loc.name) then p.(skipped := p.skipped + 1)
    else
      ProvenanceRoundTrip(loc.id);
      p.(table := p.table + [NewStation(p, loc)], inserted := p.inserted + 1, nextId := p.nextId + 1)
  }

  /** A location the import acts on: both coordinates truthy and the
      store's queries succeed. */
  predicate Eligible(a: Attempt) {
    Truthy(a.loc.lat) && Truthy(a.loc.lon) && a.storeOk
  }

  function EligibleCount(attempts: seq<Attempt>): (n: nat)
    ensures n <= |attempts|
    decreases |attempts|
  {
    if |attempts| == 0 then 0
    else EligibleCount(attempts[..|attempts| - 1]) + (if Eligible(attempts[|attempts| - 1]) then 1 else 0)
  }

  /** Growing the table keeps every name it already had. */
  lemma HasNameGrows(t: seq<Station>, u: seq<Station>, name: string)
    requires t <= u && HasName(t, name)
    ensures HasName(u, name)
  {
    var i :| 0 <= i < |t| && t[i].name == name;
    assert u[i] == t[i];
  }

  /** One more location keeps the names of the earlier eligible locations
      and adds its own when it is eligible. */
  lemma NamesAfterStep(q: Progress, init: seq<Attempt>, a: Attempt)
    requires forall i :: 0 <= i < |init| && Eligible(init[i]) ==> HasName(q.table, init[i].loc.name)
    ensures forall i :: 0 <= i < |init + [a]| && Eligible((init + [a])[i]) ==>
      HasName(ImportOne(q, a).table, (init + [a])[i].loc.name)
  {
    var r := ImportOne(q, a);
    forall i | 0 <= i < |init| && Eligible(init[i])
      ensures HasName(r.table, init[i].loc.name)
    {
      HasNameGrows(q.table, r.table, init[i].loc.name);
    }
    if Eligible(a) && !HasName(q.table, a.loc.name) {
      assert r.table[|q.table|].name == a.loc.name;
    }
  }

  /** A page, location by location in order. Every eligible location is
      either inserted or counted as skipped, and its name is in the table
      afterwards. */
  function ImportPage(p: Progress, attempts: seq<Attempt>): (r: Progress)
    ensures p.table <= r.table
    ensures UniqueNames(p.table) ==> UniqueNames(r.table)
    ensures r.inserted - p.inserted == |r.table| - |p.table|
    ensures p.skipped <= r.skipped
    ensures r.inserted + r.skipped <= p.inserted + p.skipped + |attempts|
    ensures r.inserted + r.skipped == p.inserted + p.skipped + EligibleCount(attempts)
    ensures forall i :: 0 <= i < |attempts| && Eligible(attempts[i]) ==> HasName(r.table, attempts[i].loc.name)
    decreases |attempts|
  {
    if |attempts| == 0 then p
    else
      var init, a := attempts[..|attempts| - 1], attempts[|attempts| - 1];
      var q := ImportPage(p, init);
      NamesAfterStep(q, init, a);
      assert attempts == init + [a];
      ImportOne(q, a)
  }

  /** A name seen twice in one run is inserted once and skipped once. */
  lemma RepeatedNameSkipped(p: Progress, a: Attempt)
    requires Truthy(a.loc.lat) && Truthy(a.loc.lon) && a.storeOk
    requires !HasName(p.table, a.loc.name)
    ensures ImportPage(p, [a, a]).inserted == p.inserted + 1
    ensures ImportPage(p, [a, a]).skipped == p.skipped + 1
    ensures ImportPage(p, [a, a]).table == p.table + [NewStation(p, a.loc)]
  {
    assert [a, a][..1] == [a];
    assert [a][..0] == [];
    var once := ImportOne(p, a);
    assert ImportPage(p, [a]) == once;
    assert once.table[|p.table|].name == a.loc.name;
    assert HasName(once.table, a.loc.name);
    assert ImportPage(p, [a, a]) == ImportOne(once, a);
  }

  function PageSize(f: PageFetch): nat {
    if f.Page? then |f.attempts| else 0
  }

  /** Locations on pages 1..n. */
  function Attempted(fetch: nat -> PageFetch, n: nat): nat {
    if n == 0 then 0 else Attempted(fetch, n - 1) + PageSize(fetch(n))
  }

  /** Eligible locations on one fetched page; none on a failed one. */
  function PageEligible(f: PageFetch): nat {
    if f.Page? then EligibleCount(f.attempts) else 0
  }

  /** A fetched page, as the paging loop sees it: the table and counters
      advance by exactly the page's eligible locations. */
  function ImportFetched(p: Progress, f: PageFetch): (r: Progress)
    ensures p.table <= r.table
    ensures UniqueNames(p.table) ==> UniqueNames(r.table)
    ensures r.inserted - p.inserted == |r.table| - |p.table|
    ensures r.inserted + r.skipped <= p.inserted + p.skipped + PageSize(f)
    ensures r.inserted + r.skipped == p.inserted + p.skipped + PageEligible(f)
    ensures PageNamesIn(r.table, f)
  {
    if f.Page? then ImportPage(p, f.attempts) else p
  }

  /** Every eligible location of a fetched page has its name in `table`. */
  predicate PageNamesIn(table: seq<Station>, f: PageFetch) {
    f.Page? ==> forall i :: 0 <= i < |f.attempts| && Eligible(f.attempts[i]) ==> HasName(table, f.attempts[i].loc.name)
  }

  /** Every eligible location of pages 1..n has its name in `table`. */
  predicate NamesIn(table: seq<Station>, fetch: nat -> PageFetch, n: nat) {
    forall k :: 1 <= k <= n ==> PageNamesIn(table, fetch(k))
  }

  lemma PageNamesGrow(t: seq<Station>, u: seq<Station>, f: PageFetch)
    requires t <= u && PageNamesIn(t, f)
    ensures PageNamesIn(u, f)
  {
    if f.Page? {
      forall i | 0 <= i < |f.attempts| && Eligible(f.attempts[i])
        ensures HasName(u, f.attempts[i].loc.name)
      {
        HasNameGrows(t, u, f.attempts[i].loc.name);
      }
    }
  }

  /** Names present for pages 1..n stay present as the table grows, and
      page n + 1 adds its own. */
  lemma NamesInStep(t: seq<Station>, fetch: nat -> PageFetch, n: nat, u: seq<Station>)
    requires NamesIn(t, fetch, n) && t <= u && PageNamesIn(u, fetch(n + 1))
    ensures NamesIn(u, fetch, n + 1)
  {
    forall k | 1 <= k <= n
      ensures PageNamesIn(u, fetch(k))
    {
      PageNamesGrow(t, u, fetch(k));
    }
  }

  /** Eligible locations on pages 1..n. */
  function EligibleOn(fetch: nat -> PageFetch, n: nat): nat {
    if n == 0 then 0
    else EligibleOn(fetch, n - 1) + PageEligible(fetch(n))
  }

  /** Only locations on the fetched pages can be eligible. */
  lemma {:induction false} EligibleAtMostAttempted(fetch: nat -> PageFetch, n: nat)
    ensures EligibleOn(fetch, n) <= Attempted(fetch, n)
  {
    if n > 0 {
      EligibleAtMostAttempted(fetch, n - 1);
    }
  }

  /** What the paging loop keeps after pages 1..n: the table only grows,
      stays free of duplicate names, gains one row per insert, the
      counters have advanced by the eligible locations of those pages,
      and each of their names is in the table. */
  predicate Imported(start: Progress, p: Progress, fetch: nat -> PageFetch, n: nat) {
    && start.table <= p.table
    && (UniqueNames(start.table) ==> UniqueNames(p.table))
    && p.inserted - start.inserted == |p.table| - |start.table|
    && p.inserted + p.skipped == start.inserted + start.skipped + EligibleOn(fetch, n)
    && NamesIn(p.table, fetch, n)
  }

  /** Processing page n + 1 carries the loop's facts over to it. */
  lemma ImportedStep(start: Progress, p: Progress, fetch: nat -> PageFetch, n: nat)
    requires Imported(start, p, fetch, n)
    ensures Imported(start, ImportFetched(p, fetch(n + 1)), fetch, n + 1)
  {
    var r := ImportFetched(p, fetch(n + 1));
    NamesInStep(p.table, fetch, n, r.table);
  }

  /** A failed or empty page n + 1 leaves nothing to process. */
  lemma ImportedStop(start: Progress, p: Progress, fetch: nat -> PageFetch, n: nat)
    requires Imported(start, p, fetch, n) && PageSize(fetch(n + 1)) == 0
    ensures Imported(start, p, fetch, n + 1)
  {
    assert PageEligible(fetch(n + 1)) == 0;
    NamesInStep(p.table, fetch, n, p.table);
  }

  /** Fetches page 1, 2, ... (page `k` is `fetch(k)`), stopping at the first
      failed or empty page or after page `MaxPages`, and returns the final
      progress and the number of pages fetched. */
  method Import(fetch: nat -> PageFetch, start: Progress) returns (p: Progress, pages: nat)
    ensures 1 <= pages <= MaxPages
    ensures forall k :: 1 <= k < pages ==> fetch(k).Page? && |fetch(k).attempts| > 0
    ensures pages < MaxPages ==> PageSize(fetch(pages)) == 0
    ensures start.table <= p.table
    ensures UniqueNames(start.table) ==> UniqueNames(p.table)
    ensures p.inserted - start.inserted == |p.table| - |start.table|
    ensures p.inserted + p.skipped <= start.inserted + start.skipped + Attempted(fetch, pages)
    ensures p.inserted + p.skipped == start.inserted + start.skipped + EligibleOn(fetch, pages)
    ensures NamesIn(p.table, fetch, pages)
  {
    p := start;
    pages := 0;
    var page := 1;
    // after a processed page the page number advances, and the walk ends
    // once it passes MaxPages
    while page <= MaxPages
      invariant 1 <= page <= MaxPages + 1
      invariant pages == page - 1
      invariant forall k :: 1 <= k < page ==> fetch(k).Page? && |fetch(k).attempts| > 0
      invariant Imported(start, p, fetch, pages)
    {
      var f := fetch(page);
      var done := pages;
      pages := page;
      if f.PageFailed? || |f.attempts| == 0 {
        ImportedStop(start, p, fetch, done);
        break;
      }
      ImportedStep(start, p, fetch, done);
      p := ImportFetched(p, f);
      page := page + 1;
    }
    EligibleAtMostAttempted(fetch, pages);
  }
}

=== FILE: ingest.dfy ===
/** One ingestion run: every external location of every configured city is
    matched to a station (by name, then by distance), its latest sensor
    observations are folded into one PM2.5/PM10/NO2 reading, the values are
    bounds-checked, and the reading is appended to the store. Network and
    store outcomes are inputs; the distance function is a parameter. */
module Ingest {
  import opened Wrappers
  import opened Sequences
  import opened Text
  import opened Stations

  /** Great-circle distance in km between (lat1, lon1) and (lat2, lon2). */
  type Distance = (real, real, real, real) -> real

  /** Radius within which the nearest station is accepted for a location. */
  const MatchRadiusKm: real := 2.0

  /** Largest concentration (µg/m³) the sanitiser keeps. */
  const MaxPlausible: real := 2000.0

  // ---------- station resolution ----------

  /** The station's name equals the query once both are lower-cased. */
  predicate ExactName(s: Station, name: string) {
    ToLower(s.name) == ToLower(name)
  }

  /** The lower-cased station name contains the lower-cased query. */
  predicate PartialName(s: Station, name: string) {
    Contains(ToLower(s.name), ToLower(name))
  }

  lemma ExactIsPartial(s: Station, name: string)
    requires ExactName(s, name)
    ensures PartialName(s, name)
  {
    ContainsItself(ToLower(name));
  }

  /** Position of the station a name resolves to: the first exact
      (case-insensitive) match, else the first station whose name contains
      the query, else none. */
  function FindStationByName(table: seq<Station>, name: string): (r: Option<nat>)
    ensures r.Some? ==> r.value < |table| && PartialName(table[r.value], name)
    ensures (exists i :: 0 <= i < |table| && ExactName(table[i], name)) ==>
      && r.Some? && ExactName(table[r.value], name)
      && forall j :: 0 <= j < r.value ==> !ExactName(table[j], name)
    ensures (forall i :: 0 <= i < |table| ==> !ExactName(table[i], name)) && r.Some? ==>
      && PartialName(table[r.value], name)
      && forall j :: 0 <= j < r.value ==> !PartialName(table[j], name)
    ensures r.None? <==> forall i :: 0 <= i < |table| ==> !PartialName(table[i], name)
  {
    match FindFirst(table, (s: Station) => ExactName(s, name))
    case Some(i) =>
      ExactIsPartial(table[i], name);
      Some(i)
    case None =>
      FindFirst(table, (s: Station) => PartialName(s, name))
  }

  function DistanceTo(dist: Distance, lat: real, lon: real, s: Station): real {
    dist(lat, lon, s.lat, s.lon)
  }

  /** The scan for the closest station: strict `<` keeps the earliest of
      equally close stations. */
  function Closest(table: seq<Station>, lat: real, lon: real, dist: Distance): (k: nat)
    requires |table| > 0
    ensures k < |table|
    ensures forall j :: 0 <= j < |table| ==>
      DistanceTo(dist, lat, lon, table[k]) <= DistanceTo(dist, lat, lon, table[j])
    ensures forall j :: 0 <= j < k ==>
      DistanceTo(dist, lat, lon, table[k]) < DistanceTo(dist, lat, lon, table[j])
    decreases |table|
  {
    if |table| == 1 then 0
    else
      var k := Closest(table[..|table| - 1], lat, lon, dist);
      var last := |table| - 1;
      if DistanceTo(dist, lat, lon, table[last]) < DistanceTo(dist, lat, lon, table[k]) then last else k
  }

  /** The nearest station, accepted only within `maxKm` (inclusive). */
  function FindNearestStation(table: seq<Station>, lat: real, lon: real, maxKm: real, dist: Distance): (r: Option<nat>)
    ensures r.Some? ==>
      && r.value < |table|
      && DistanceTo(dist, lat, lon, table[r.value]) <= maxKm
      && (forall j :: 0 <= j < |table| ==>
            DistanceTo(dist, lat, lon, table[r.value]) <= DistanceTo(dist, lat, lon, table[j]))
      && (forall j :: 0 <= j < r.value ==>
            DistanceTo(dist, lat, lon, table[r.value]) < DistanceTo(dist, lat, lon, table[j]))
    ensures r.None? <==> forall j :: 0 <= j < |table| ==> DistanceTo(dist, lat, lon, table[j]) > maxKm
  {
    if |table| == 0 then None
    else
      var k := Closest(table, lat, lon, dist);
      if DistanceTo(dist, lat, lon, table[k]) <= maxKm then Some(k) else None
  }

  // ---------- external data ----------

  /** A sensor descriptor of a location: its id and parameter name, either
      of which may be missing. */
  datatype Sensor = Sensor(id: Option<int>, parameter: Option<string>)

  datatype Location = Location(
    id: nat,
    name: Option<string>,
    lat: Option<real>,
    lon: Option<real>,
    sensors: seq<Sensor>)

  /** The `value` field of an observation: absent, `null`, or a number. */
  datatype Reported = Undefined | Null | Num(x: real)

  datatype Observation = Observation(sensorId: int, value: Reported, time: int)

  /** Outcome of fetching a location's latest observations. */
  datatype LatestFetch =
    | FetchFailed                       // the request threw
    | NoResults                         // no `results` array in the payload
    | Results(observations: seq<Observation>)

  /** One location of a city, with what the network and the store do for
      it and the clock reading taken when its row is built. */
  datatype LocationRun = LocationRun(loc: Location, latest: LatestFetch, insertOk: bool, now: int)

  /** Outcome of fetching a city's location list. */
  datatype CityFetch =
    | CityFailed                        // the request threw
    | CityMalformed                     // no `results` array in the payload
    | CityLocations(runs: seq<LocationRun>)

  /** A row of `readings`; timestamps are milliseconds since the epoch. */
  datatype Reading = Reading(
    stationId: int,
    pm25: Option<real>,
    pm10: Option<real>,
    no2: Option<real>,
    timestamp: int)

  /** Name matching is tried only for a non-empty name. */
  predicate NameGiven(loc: Location) {
    loc.name.Some? && |loc.name.value| > 0
  }

  /** Match by name, else (when both coordinates are present) by distance
      within `MatchRadiusKm`. */
  function ResolveStation(table: seq<Station>, loc: Location, dist: Distance): (r: Option<nat>)
    ensures r.Some? ==> r.value < |table|
    ensures NameGiven(loc) && (exists i :: 0 <= i < |table| && PartialName(table[i], loc.name.value)) ==>
      r == FindStationByName(table, loc.name.value)
    ensures r.Some? && !(NameGiven(loc) && PartialName(table[r.value], loc.name.value)) ==>
      && loc.lat.Some? && loc.lon.Some?
      && DistanceTo(dist, loc.lat.value, loc.lon.value, table[r.value]) <= MatchRadiusKm
    ensures ((!NameGiven(loc) || forall i :: 0 <= i < |table| ==> !PartialName(table[i], loc.name.value))
             && loc.lat.Some? && loc.lon.Some?) ==>
      r == FindNearestStation(table, loc.lat.value, loc.lon.value, MatchRadiusKm, dist)
    ensures r.None? <==>
      && (!NameGiven(loc) || forall i :: 0 <= i < |table| ==> !PartialName(table[i], loc.name.value))
      && (loc.lat.None? || loc.lon.None? ||
          forall j :: 0 <= j < |table| ==> DistanceTo(dist, loc.lat.value, loc.lon.value, table[j]) > MatchRadiusKm)
  {
    var byName := if NameGiven(loc) then FindStationByName(table, loc.name.value) else None;
    if byName.Some? then byName
    else if loc.lat.Some? && loc.lon.Some? then
      FindNearestStation(table, loc.lat.value, loc.lon.value, MatchRadiusKm, dist)
    else None
  }

  // ---------- sensor map ----------

  /** A sensor with a non-zero id and a non-empty parameter name. */
  predicate Mappable(s: Sensor) {
    s.id.Some? && s.id.value != 0 && s.parameter.Some? && |s.parameter.value| > 0
  }

  /** Some mappable sensor carries this id. */
  predicate Listed(sensors: seq<Sensor>, id: int) {
    exists k :: 0 <= k < |sensors| && Mappable(sensors[k]) && sensors[k].id.value == id
  }

  /** Sensor `k` is the last mappable sensor with this id. */
  predicate LastWithId(sensors: seq<Sensor>, id: int, k: int) {
    && 0 <= k < |sensors| && Mappable(sensors[k]) && sensors[k].id.value == id
    && forall j :: k < j < |sensors| && Mappable(sensors[j]) ==> sensors[j].id.value != id
  }

  /** Sensor id to lower-cased parameter name; a later descriptor with the
      same id overwrites an earlier one. */
  function SensorMap(sensors: seq<Sensor>): map<int, string>
    decreases |sensors|
  {
    if |sensors| == 0 then map[]
    else
      var m := SensorMap(sensors[..|sensors| - 1]);
      var s := sensors[|sensors| - 1];
      if Mappable(s) then m[s.id.value := ToLower(s.parameter.value)] else m
  }

  /** The map's keys are exactly the ids of the mappable sensors. */
  lemma {:induction false} SensorMapKeys(sensors: seq<Sensor>)
    ensures forall id :: id in SensorMap(sensors) <==> Listed(sensors, id)
    decreases |sensors|
  {
    if |sensors| > 0 {
      var n := |sensors|;
      var prefix := sensors[..n - 1];
      SensorMapKeys(prefix);
      forall id
        ensures id in SensorMap(sensors) <==> Listed(sensors, id)
      {
        if Listed(prefix, id) {
          var k :| 0 <= k < |prefix| && Mappable(prefix[k]) && prefix[k].id.value == id;
          assert sensors[k] == prefix[k];
        }
        if Listed(sensors, id) {
          var k :| 0 <= k < n && Mappable(sensors[k]) && sensors[k].id.value == id;
          if k < n - 1 {
            assert prefix[k] == sensors[k];
          }
        }
      }
    }
  }

  /** Each id maps to the lower-cased name of the last mappable sensor
      carrying it. */
  lemma {:induction false} SensorMapValues(sensors: seq<Sensor>, id: int)
    requires id in SensorMap(sensors)
    ensures exists k :: LastWithId(sensors, id, k) && SensorMap(sensors)[id] == ToLower(sensors[k].parameter.value)
    decreases |sensors|
  {
    var n := |sensors|;
    var prefix := sensors[..n - 1];
    var last := sensors[n - 1];
    if Mappable(last) && last.id.value == id {
      assert LastWithId(sensors, id, n - 1);
    } else {
      SensorMapValues(prefix, id);
      var k :| LastWithId(prefix, id, k) && SensorMap(prefix)[id] == ToLower(prefix[k].parameter.value);
      assert sensors[k] == prefix[k];
      assert LastWithId(sensors, id, k);
    }
  }

  // ---------- reduction of the latest observations ----------

  /** Values per parameter name, and the latest contributing time (0 when
      nothing contributed after the epoch). */
  datatype Latest = Latest(values: map<string, Reported>, lastUpdated: int)

  /** An observation is used when its sensor maps to a parameter name and
      its value is not `undefined`. */
  predicate Contributes(o: Observation, sensorMap: map<int, string>) {
    o.sensorId in sensorMap && |sensorMap[o.sensorId]| > 0 && o.value != Undefined
  }

  function ParameterOf(o: Observation, sensorMap: map<int, string>): string
    requires Contributes(o, sensorMap)
  {
    sensorMap[o.sensorId]
  }

  /** Observation `k` is the last one contributing to parameter `p`. */
  predicate LastFor(obs: seq<Observation>, sensorMap: map<int, string>, p: string, k: int) {
    && 0 <= k < |obs| && Contributes(obs[k], sensorMap) && ParameterOf(obs[k], sensorMap) == p
    && forall j :: k < j < |obs| && Contributes(obs[j], sensorMap) ==> ParameterOf(obs[j], sensorMap) != p
  }

  /** Some observation contributes to parameter `p`. */
  predicate Reports(obs: seq<Observation>, sensorMap: map<int, string>, p: string) {
    exists k :: 0 <= k < |obs| && Contributes(obs[k], sensorMap) && ParameterOf(obs[k], sensorMap) == p
  }

  /** The fold over the observations in list order: a contributing
      observation overwrites its parameter's value and may advance the
      time, which starts at the epoch. */
  function Reduce(obs: seq<Observation>, sensorMap: map<int, string>): Latest
    decreases |obs|
  {
    if |obs| == 0 then Latest(map[], 0)
    else
      var r := Reduce(obs[..|obs| - 1], sensorMap);
      var o := obs[|obs| - 1];
      if Contributes(o, sensorMap) then
        Latest(r.values[ParameterOf(o, sensorMap) := o.value],
               if o.time > r.lastUpdated then o.time else r.lastUpdated)
      else r
  }

  /** The value kept is the last in list order while the time kept is the
      largest, so a reading may pair one observation's value with another's
      time: here 20.0 comes from the observation at t = 1000, yet the time
      is 2000. */
  lemma ValueAndTimeFromDifferentObservations()
    ensures var r := Reduce([Observation(7, Num(10.0), 2000), Observation(7, Num(20.0), 1000)], map[7 := "pm2.5"]);
      r.values["pm2.5"] == Num(20.0) && r.lastUpdated == 2000
  {
    var obs := [Observation(7, Num(10.0), 2000), Observation(7, Num(20.0), 1000)];
    assert obs[..1] == [obs[0]];
    assert obs[..1][..0] == [];
  }

  /** `lastUpdated` is the largest contributing time, or 0 when no
      contributing time is after the epoch. */
  lemma {:induction false} ReduceTime(obs: seq<Observation>, sensorMap: map<int, string>)
    ensures Reduce(obs, sensorMap).lastUpdated >= 0
    ensures forall k :: 0 <= k < |obs| && Contributes(obs[k], sensorMap) ==>
      obs[k].time <= Reduce(obs, sensorMap).lastUpdated
    ensures Reduce(obs, sensorMap).lastUpdated > 0 ==>
      exists k :: 0 <= k < |obs| && Contributes(obs[k], sensorMap) && obs[k].time == Reduce(obs, sensorMap).lastUpdated
    decreases |obs|
  {
    if |obs| > 0 {
      var n := |obs|;
      var prefix := obs[..n - 1];
      ReduceTime(prefix, sensorMap);
      var r := Reduce(prefix, sensorMap);
      forall k | 0 <= k < n && Contributes(obs[k], sensorMap)
        ensures obs[k].time <= Reduce(obs, sensorMap).lastUpdated
      {
        if k < n - 1 {
          assert prefix[k] == obs[k];
        }
      }
      if Reduce(obs, sensorMap).lastUpdated > 0 && Reduce(obs, sensorMap).lastUpdated == r.lastUpdated {
        var k :| 0 <= k < |prefix| && Contributes(prefix[k], sensorMap) && prefix[k].time == r.lastUpdated;
        assert obs[k] == prefix[k];
      }
    }
  }

  /** A parameter has a value exactly when some observation contributed
      to it. */
  lemma {:induction false} ReduceKeys(obs: seq<Observation>, sensorMap: map<int, string>)
    ensures forall p :: p in Reduce(obs, sensorMap).values <==> Reports(obs, sensorMap, p)
    decreases |obs|
  {
    if |obs| > 0 {
      var n := |obs|;
      var prefix := obs[..n - 1];
      ReduceKeys(prefix, sensorMap);
      forall p
        ensures p in Reduce(obs, sensorMap).values <==> Reports(obs, sensorMap, p)
      {
        if Reports(prefix, sensorMap, p) {
          var k :| 0 <= k < |prefix| && Contributes(prefix[k], sensorMap) && ParameterOf(prefix[k], sensorMap) == p;
          assert obs[k] == prefix[k];
        }
        if Reports(obs, sensorMap, p) {
          var k :| 0 <= k < n && Contributes(obs[k], sensorMap) && ParameterOf(obs[k], sensorMap) == p;
          if k < n - 1 {
            assert prefix[k] == obs[k];
          }
        }
      }
    }
  }

  /** A parameter's value is that of the last observation contributing to
      it: later observations overwrite earlier ones. */
  lemma {:induction false} ReduceValues(obs: seq<Observation>, sensorMap: map<int, string>, p: string)
    requires p in Reduce(obs, sensorMap).values
    ensures exists k :: LastFor(obs, sensorMap, p, k) && Reduce(obs, sensorMap).values[p] == obs[k].value
    decreases |obs|
  {
    var n := |obs|;
    var prefix := obs[..n - 1];
    var last := obs[n - 1];
    if Contributes(last, sensorMap) && ParameterOf(last, sensorMap) == p {
      assert LastFor(obs, sensorMap, p, n - 1);
    } else {
      ReduceValues(prefix, sensorMap, p);
      var k :| LastFor(prefix, sensorMap, p, k) && Reduce(prefix, sensorMap).values[p] == prefix[k].value;
      assert obs[k] == prefix[k];
      assert LastFor(obs, sensorMap, p, k);
    }
  }

  // ---------- selecting and sanitising the pollutant values ----------

  /** `values[key]`, `undefined` when absent. */
  function Lookup(values: map<string, Reported>, key: string): Reported {
    if key in values then values[key] else Undefined
  }

  /** `a ?? b ?? null` over reported values. */
  function FirstNumber(a: Reported, b: Reported): (r: Option<real>)
    ensures r.Some? <==> a.Num? || b.Num?
    ensures a.Num? ==> r == Some(a.x)
    ensures !a.Num? && b.Num? ==> r == Some(b.x)
  {
    if a.Num? then Some(a.x) else if b.Num? then Some(b.x) else None
  }

  /** PM2.5 under the key "pm2.5", or else "pm25". */
  function Pm25(values: map<string, Reported>): Option<real> {
    FirstNumber(Lookup(values, "pm2.5"), Lookup(values, "pm25"))
  }

  function Pm10(values: map<string, Reported>): Option<real> {
    FirstNumber(Lookup(values, "pm10"), Null)
  }

  function No2(values: map<string, Reported>): Option<real> {
    FirstNumber(Lookup(values, "no2"), Null)
  }

  /** `"pm2.5"` wins whenever it holds a number; `"pm25"` is read only
      when `"pm2.5"` is absent or `null`. */
  lemma Pm25KeyPreference(values: map<string, Reported>, x: real, y: real)
    ensures Pm25(values["pm2.5" := Num(x)]["pm25" := Num(y)]) == Some(x)
    ensures "pm2.5" !in values ==> Pm25(values["pm25" := Num(y)]) == Some(y)
    ensures Pm25(values["pm2.5" := Null]["pm25" := Num(y)]) == Some(y)
  {
  }

  /** Keeps a number in [0, 2000]; anything else becomes `null`. */
  function Sanitize(v: Option<real>): (r: Option<real>)
    ensures r.Some? <==> v.Some? && 0.0 <= v.value <= MaxPlausible
    ensures r.Some? ==> r == v
  {
    match v
    case None => None
    case Some(n) => if n < 0.0 || n > MaxPlausible then None else Some(n)
  }

  lemma SanitizeIdempotent(v: Option<real>)
    ensures Sanitize(Sanitize(v)) == Sanitize(v)
  {
  }

  /** A value the store accepts after sanitising. */
  predicate Plausible(v: Option<real>) {
    v.Some? ==> 0.0 <= v.value <= MaxPlausible
  }

  /** The timestamp written: the latest observation time, or `now` when
      that is not after the epoch. */
  function TimestampOf(latest: Latest, now: int): (ts: int)
    ensures ts == latest.lastUpdated || ts == now
    ensures latest.lastUpdated > 0 <==> ts == latest.lastUpdated && ts > 0
    ensures latest.lastUpdated <= 0 ==> ts == now
  {
    if latest.lastUpdated > 0 then latest.lastUpdated else now
  }

  /** The reading for a station, if the gate lets it through. The gate
      tests the raw values, and the row carries the sanitised ones. */
  function ReadingFor(stationId: int, latest: Latest, now: int): (r: Option<Reading>)
    ensures r.Some? <==> Pm25(latest.values).Some? || Pm10(latest.values).Some? || No2(latest.values).Some?
    ensures r.Some? ==>
      && r.value.stationId == stationId
      && r.value.pm25 == Sanitize(Pm25(latest.values))
      && r.value.pm10 == Sanitize(Pm10(latest.values))
      && r.value.no2 == Sanitize(No2(latest.values))
      && r.value.timestamp == TimestampOf(latest, now)
  {
    var pm25 := Pm25(latest.values);
    var pm10 := Pm10(latest.values);
    var no2 := No2(latest.values);
    if pm25.Some? || pm10.Some? || no2.Some? then
      Some(Reading(stationId, Sanitize(pm25), Sanitize(pm10), Sanitize(no2), TimestampOf(latest, now)))
    else None
  }

  /** A row whose only value is out of range passes the gate and is
      stored with every pollutant `null`. */
  lemma GateUsesRawValues(stationId: int, values: map<string, Reported>, t: int, now: int, x: real)
    requires x > MaxPlausible
    requires "pm25" !in values && "pm10" !in values && "no2" !in values
    ensures ReadingFor(stationId, Latest(values["pm2.5" := Num(x)], t), now)
      == Some(Reading(stationId, None, None, None, if t > 0 then t else now))
  {
  }

  // ---------- per-location processing and the run ----------

  /** The values and time the location's latest observations reduce to;
      a missing `results` array reduces to nothing. */
  function Measure(loc: Location, latest: LatestFetch): Latest
    requires !latest.FetchFailed?
  {
    match latest
    case NoResults => Latest(map[], 0)
    case Results(obs) => Reduce(obs, SensorMap(loc.sensors))
  }

  /** The reading one location contributes: none when it matches no
      station, when its latest fetch fails, when the gate is closed, or
      when the insert fails. */
  function ProcessLocation(table: seq<Station>, run: LocationRun, dist: Distance): (r: Option<Reading>)
    ensures ResolveStation(table, run.loc, dist).None? ==> r.None?
    ensures run.latest.FetchFailed? || run.latest.NoResults? || !run.insertOk ==> r.None?
    ensures r.Some? ==>
      var i := ResolveStation(table, run.loc, dist).value;
      && r.value.stationId == table[i].id
      && r == ReadingFor(table[i].id, Measure(run.loc, run.latest), run.now)
    ensures ResolveStation(table, run.loc, dist).Some? && run.latest.Results? && run.insertOk ==>
      r == ReadingFor(table[ResolveStation(table, run.loc, dist).value].id, Measure(run.loc, run.latest), run.now)
  {
    match ResolveStation(table, run.loc, dist)
    case None => None
    case Some(i) =>
      if run.latest.FetchFailed? then None
      else
        var reading := ReadingFor(table[i].id, Measure(run.loc, run.latest), run.now);
        if run.insertOk then reading else None
  }

  /** A stored reading names a station of the table and carries only
      sanitised values. */
  predicate WellFormed(table: seq<Station>, r: Reading) {
    && (exists i :: 0 <= i < |table| && table[i].id == r.stationId)
    && Plausible(r.pm25) && Plausible(r.pm10) && Plausible(r.no2)
  }

  lemma ProcessedIsWellFormed(table: seq<Station>, run: LocationRun, dist: Distance)
    ensures ProcessLocation(table, run, dist).Some? ==>
      WellFormed(table, ProcessLocation(table, run, dist).value)
  {
  }

  /** The readings appended while walking a city's locations in order. */
  function IngestLocations(table: seq<Station>, runs: seq<LocationRun>, dist: Distance): (rs: seq<Reading>)
    ensures |rs| <= |runs|
    ensures forall k :: 0 <= k < |rs| ==> WellFormed(table, rs[k])
    decreases |runs|
  {
    if |runs| == 0 then []
    else
      var rs := IngestLocations(table, runs[..|runs| - 1], dist);
      var last := runs[|runs| - 1];
      ProcessedIsWellFormed(table, last, dist);
      match ProcessLocation(table, last, dist)
      case None => rs
      case Some(r) => rs + [r]
  }

  /** Processing one more location extends the stored readings by that
      location's reading, if any. */
  lemma IngestSnoc(table: seq<Station>, runs: seq<LocationRun>, x: LocationRun, dist: Distance)
    ensures IngestLocations(table, runs + [x], dist) ==
      match ProcessLocation(table, x, dist)
      case None => IngestLocations(table, runs, dist)
      case Some(r) => IngestLocations(table, runs, dist) + [r]
  {
    assert (runs + [x])[..|runs|] == runs;
  }

  /** The walk holds exactly the readings its locations store: each
      stored reading appears, and nothing else does. */
  lemma IngestContents(table: seq<Station>, runs: seq<LocationRun>, dist: Distance)
    ensures forall k :: (0 <= k < |runs| && ProcessLocation(table, runs[k], dist).Some?) ==>
      ProcessLocation(table, runs[k], dist).value in IngestLocations(table, runs, dist)
    ensures forall r :: r in IngestLocations(table, runs, dist) ==>
      exists k :: 0 <= k < |runs| && ProcessLocation(table, runs[k], dist) == Some(r)
  {
    StoredReadingsKept(table, runs, dist);
    OnlyStoredReadings(table, runs, dist);
  }

  lemma {:induction false} StoredReadingsKept(table: seq<Station>, runs: seq<LocationRun>, dist: Distance)
    ensures forall k :: (0 <= k < |runs| && ProcessLocation(table, runs[k], dist).Some?) ==>
      ProcessLocation(table, runs[k], dist).value in IngestLocations(table, runs, dist)
    decreases |runs|
  {
    if |runs| > 0 {
      var n := |runs|;
      var init, last := runs[..n - 1], runs[n - 1];
      assert runs == init + [last];
      StoredReadingsKept(table, init, dist);
      IngestSnoc(table, init, last, dist);
      forall k | 0 <= k < n && ProcessLocation(table, runs[k], dist).Some?
        ensures ProcessLocation(table, runs[k], dist).value in IngestLocations(table, runs, dist)
      {
        if k < n - 1 {
          assert runs[k] == init[k];
        }
      }
    }
  }

  lemma {:induction false} OnlyStoredReadings(table: seq<Station>, runs: seq<LocationRun>, dist: Distance)
    ensures forall r :: r in IngestLocations(table, runs, dist) ==>
      exists k :: 0 <= k < |runs| && ProcessLocation(table, runs[k], dist) == Some(r)
    decreases |runs|
  {
    if |runs| > 0 {
      var n := |runs|;
      var init, last := runs[..n - 1], runs[n - 1];
      assert runs == init + [last];
      OnlyStoredReadings(table, init, dist);
      IngestSnoc(table, init, last, dist);
      forall r | r in IngestLocations(table, runs, dist)
        ensures exists k :: 0 <= k < n && ProcessLocation(table, runs[k], dist) == Some(r)
      {
        if r in IngestLocations(table, init, dist) {
          var k :| 0 <= k < n - 1 && ProcessLocation(table, init[k], dist) == Some(r);
          assert runs[k] == init[k];
        } else {
          assert ProcessLocation(table, runs[n - 1], dist) == Some(r);
        }
      }
    }
  }

  /** How many of the locations store exactly the reading `r`. */
  function Occurrences(table: seq<Station>, runs: seq<LocationRun>, dist: Distance, r: Reading): nat
    decreases |runs|
  {
    if |runs| == 0 then 0
    else
      Occurrences(table, runs[..|runs| - 1], dist, r)
        + (if ProcessLocation(table, runs[|runs| - 1], dist) == Some(r) then 1 else 0)
  }

  /** One row per storing location: each reading appears in the walk as
      many times as there are locations storing it, duplicates included. */
  lemma {:induction false} IngestMultiplicity(table: seq<Station>, runs: seq<LocationRun>, dist: Distance, r: Reading)
    ensures multiset(IngestLocations(table, runs, dist))[r] == Occurrences(table, runs, dist, r)
    decreases |runs|
  {
    if |runs| > 0 {
      var n := |runs|;
      var init, last := runs[..n - 1], runs[n - 1];
      assert runs == init + [last];
      IngestMultiplicity(table, init, dist, r);
      IngestSnoc(table, init, last, dist);
    }
  }

  /** Two locations resolving to the same station each store a reading for
      it: nothing limits a station to one reading per run. */
  lemma SameStationTwice(table: seq<Station>, runs: seq<LocationRun>, a: LocationRun, b: LocationRun, dist: Distance)
    ensures var pa, pb := ProcessLocation(table, a, dist), ProcessLocation(table, b, dist);
      (pa.Some? && pb.Some? && ResolveStation(table, a.loc, dist) == ResolveStation(table, b.loc, dist)) ==>
        && IngestLocations(table, runs + [a] + [b], dist) == IngestLocations(table, runs, dist) + [pa.value, pb.value]
        && pa.value.stationId == pb.value.stationId
  {
    IngestSnoc(table, runs, a, dist);
    IngestSnoc(table, runs + [a], b, dist);
  }

  /** A city's walk stores nothing exactly when no single location stores
      a reading. */
  lemma {:induction false} NothingStoredIff(table: seq<Station>, runs: seq<LocationRun>, dist: Distance)
    ensures IngestLocations(table, runs, dist) == [] <==>
      forall k :: 0 <= k < |runs| ==> ProcessLocation(table, runs[k], dist).None?
    decreases |runs|
  {
    if |runs| > 0 {
      var n := |runs|;
      var init, last := runs[..n - 1], runs[n - 1];
      assert runs == init + [last];
      IngestSnoc(table, init, last, dist);
      match ProcessLocation(table, last, dist)
      case Some(r) =>
        assert IngestLocations(table, runs, dist) == IngestLocations(table, init, dist) + [r];
      case None =>
        NothingStoredIff(table, init, dist);
        assert IngestLocations(table, runs, dist) == IngestLocations(table, init, dist);
        assert forall k :: 0 <= k < n - 1 ==> runs[k] == init[k];
    }
  }

  /** A location whose latest fetch fails is skipped on its own: the
      other locations of the city store exactly what they would without it. */
  lemma {:induction false} FailedLocationIsolated(table: seq<Station>, runs: seq<LocationRun>, failed: LocationRun, k: nat, dist: Distance)
    requires k <= |runs| && failed.latest.FetchFailed?
    ensures IngestLocations(table, runs[..k] + [failed] + runs[k..], dist) == IngestLocations(table, runs, dist)
    decreases |runs|
  {
    if k == |runs| {
      assert runs[..k] + [failed] + runs[k..] == runs + [failed];
      IngestSnoc(table, runs, failed, dist);
    } else {
      var n := |runs|;
      var init, last := runs[..n - 1], runs[n - 1];
      var shorter := init[..k] + [failed] + init[k..];
      assert runs[..k] + [failed] + runs[k..] == shorter + [last];
      assert runs == init + [last];
      FailedLocationIsolated(table, init, failed, k, dist);
      IngestSnoc(table, shorter, last, dist);
      IngestSnoc(table, init, last, dist);
    }
  }

  /** A city whose location list cannot be fetched contributes nothing. */
  function IngestCity(table: seq<Station>, city: CityFetch, dist: Distance): (rs: seq<Reading>)
    ensures !city.CityLocations? ==> rs == []
    ensures city.CityLocations? ==> |rs| <= |city.runs|
    ensures forall k :: 0 <= k < |rs| ==> WellFormed(table, rs[k])
  {
    match city
    case CityLocations(runs) => IngestLocations(table, runs, dist)
    case _ => []
  }

  /** A listed city stores nothing exactly when none of its locations
      stores a reading, and its readings are exactly those its locations
      store; a city whose list could not be fetched stores nothing. */
  lemma CityContents(table: seq<Station>, city: CityFetch, dist: Distance)
    ensures var rs := IngestCity(table, city, dist);
      city.CityLocations? ==>
        (rs == [] <==> forall k :: 0 <= k < |city.runs| ==> ProcessLocation(table, city.runs[k], dist).None?)
    ensures var rs := IngestCity(table, city, dist);
      city.CityLocations? ==>
        forall k :: (0 <= k < |city.runs| && ProcessLocation(table, city.runs[k], dist).Some?) ==>
          ProcessLocation(table, city.runs[k], dist).value in rs
    ensures var rs := IngestCity(table, city, dist);
      forall r :: r in rs ==>
        city.CityLocations? && exists k :: 0 <= k < |city.runs| && ProcessLocation(table, city.runs[k], dist) == Some(r)
  {
    if city.CityLocations? {
      NothingStoredIff(table, city.runs, dist);
      IngestContents(table, city.runs, dist);
    }
  }

  /** Number of locations listed across the fetched cities. */
  function LocationCount(cities: seq<CityFetch>): nat
    decreases |cities|
  {
    if |cities| == 0 then 0
    else
      var c := cities[|cities| - 1];
      LocationCount(cities[..|cities| - 1]) + (if c.CityLocations? then |c.runs| else 0)
  }

  /** Every reading stored by a location of one of the cities is in `rs`. */
  predicate StoredIn(table: seq<Station>, cities: seq<CityFetch>, rs: seq<Reading>, dist: Distance) {
    forall i, k :: (0 <= i < |cities| && cities[i].CityLocations? && 0 <= k < |cities[i].runs|
                    && ProcessLocation(table, cities[i].runs[k], dist).Some?) ==>
      ProcessLocation(table, cities[i].runs[k], dist).value in rs
  }

  /** Every reading in `rs` is one stored by a location of one of the cities. */
  predicate OnlyStored(table: seq<Station>, cities: seq<CityFetch>, rs: seq<Reading>, dist: Distance) {
    forall r :: r in rs ==> exists i, k ::
      && 0 <= i < |cities| && cities[i].CityLocations? && 0 <= k < |cities[i].runs|
      && ProcessLocation(table, cities[i].runs[k], dist) == Some(r)
  }

  /** One run over the configured cities, in order. */
  function RunIngestOnce(table: seq<Station>, cities: seq<CityFetch>, dist: Distance): (rs: seq<Reading>)
    ensures |rs| <= LocationCount(cities)
    ensures forall k :: 0 <= k < |rs| ==> WellFormed(table, rs[k])
    decreases |cities|
  {
    if |cities| == 0 then []
    else
      RunIngestOnce(table, cities[..|cities| - 1], dist) + IngestCity(table, cities[|cities| - 1], dist)
  }

  /** A run holds every reading stored by a location of a listed city, and
      nothing else. */
  lemma {:induction false} RunContents(table: seq<Station>, cities: seq<CityFetch>, dist: Distance)
    ensures var rs := RunIngestOnce(table, cities, dist);
      StoredIn(table, cities, rs, dist) && OnlyStored(table, cities, rs, dist)
    decreases |cities|
  {
    if |cities| > 0 {
      var init := cities[..|cities| - 1];
      RunContents(table, init, dist);
      RunStep(table, cities, init, RunIngestOnce(table, init, dist), IngestCity(table, cities[|cities| - 1], dist), dist);
    }
  }

  /** The readings of all but the last city followed by the last city's
      hold exactly the readings stored by the locations of all the cities. */
  lemma RunStep(table: seq<Station>, cities: seq<CityFetch>, init: seq<CityFetch>, prev: seq<Reading>, cur: seq<Reading>, dist: Distance)
    requires |cities| > 0 && init == cities[..|cities| - 1]
    requires StoredIn(table, init, prev, dist) && OnlyStored(table, init, prev, dist)
    requires cur == IngestCity(table, cities[|cities| - 1], dist)
    ensures StoredIn(table, cities, prev + cur, dist) && OnlyStored(table, cities, prev + cur, dist)
  {
    StoredInStep(table, cities, init, prev, cur, dist);
    OnlyStoredStep(table, cities, init, prev, cur, dist);
  }

  lemma StoredInStep(table: seq<Station>, cities: seq<CityFetch>, init: seq<CityFetch>, prev: seq<Reading>, cur: seq<Reading>, dist: Distance)
    requires |cities| > 0 && init == cities[..|cities| - 1]
    requires StoredIn(table, init, prev, dist)
    requires cur == IngestCity(table, cities[|cities| - 1], dist)
    ensures StoredIn(table, cities, prev + cur, dist)
  {
    var n := |cities|;
    forall i, k | 0 <= i < n && cities[i].CityLocations? && 0 <= k < |cities[i].runs|
                  && ProcessLocation(table, cities[i].runs[k], dist).Some?
      ensures ProcessLocation(table, cities[i].runs[k], dist).value in prev + cur
    {
      var v := ProcessLocation(table, cities[i].runs[k], dist).value;
      if i < n - 1 {
        assert init[i] == cities[i];
        assert v in prev;
      } else {
        CityContents(table, cities[n - 1], dist);
        assert v in cur;
      }
    }
  }

  lemma OnlyStoredStep(table: seq<Station>, cities: seq<CityFetch>, init: seq<CityFetch>, prev: seq<Reading>, cur: seq<Reading>, dist: Distance)
    requires |cities| > 0 && init == cities[..|cities| - 1]
    requires OnlyStored(table, init, prev, dist)
    requires cur == IngestCity(table, cities[|cities| - 1], dist)
    ensures OnlyStored(table, cities, prev + cur, dist)
  {
    var n := |cities|;
    var last := cities[n - 1];
    forall r | r in prev + cur
      ensures exists i, k ::
        && 0 <= i < n && cities[i].CityLocations? && 0 <= k < |cities[i].runs|
        && ProcessLocation(table, cities[i].runs[k], dist) == Some(r)
    {
      if r in prev {
        var i, k :| && 0 <= i < |init| && init[i].CityLocations? && 0 <= k < |init[i].runs|
          && ProcessLocation(table, init[i].runs[k], dist) == Some(r);
        assert cities[i] == init[i];
      } else {
        assert r in cur;
        CityContents(table, last, dist);
        var k :| 0 <= k < |last.runs| && ProcessLocation(table, last.runs[k], dist) == Some(r);
        assert cities[n - 1] == last;
      }
    }
  }

  /** One more city appends that city's readings to the run's. */
  lemma RunSnoc(table: seq<Station>, cities: seq<CityFetch>, c: CityFetch, dist: Distance)
    ensures RunIngestOnce(table, cities + [c], dist) == RunIngestOnce(table, cities, dist) + IngestCity(table, c, dist)
  {
    assert (cities + [c])[..|cities|] == cities;
  }

  /** A city whose location list cannot be fetched is skipped on its own:
      the other cities store exactly what they would without it. */
  lemma {:induction false} FailedCityIsolated(table: seq<Station>, cities: seq<CityFetch>, k: nat, dist: Distance)
    requires k <= |cities|
    ensures RunIngestOnce(table, cities[..k] + [CityFailed] + cities[k..], dist) == RunIngestOnce(table, cities, dist)
    decreases |cities|
  {
    if k == |cities| {
      assert cities[..k] + [CityFailed] + cities[k..] == cities + [CityFailed];
      RunSnoc(table, cities, CityFailed, dist);
    } else {
      var n := |cities|;
      var init, last := cities[..n - 1], cities[n - 1];
      var shorter := init[..k] + [CityFailed] + init[k..];
      assert cities[..k] + [CityFailed] + cities[k..] == shorter + [last];
      assert cities == init + [last];
      FailedCityIsolated(table, init, k, dist);
      RunSnoc(table, shorter, last, dist);
      RunSnoc(table, init, last, dist);
    }
  }

  /** How many locations of the cities store exactly the reading `r`. */
  function RunOccurrences(table: seq<Station>, cities: seq<CityFetch>, dist: Distance, r: Reading): nat
    decreases |cities|
  {
    if |cities| == 0 then 0
    else
      var c := cities[|cities| - 1];
      RunOccurrences(table, cities[..|cities| - 1], dist, r)
        + (if c.CityLocations? then Occurrences(table, c.runs, dist, r) else 0)
  }

  /** A city's rows count its storing locations; a city without a list has none. */
  lemma CityMultiplicity(table: seq<Station>, city: CityFetch, dist: Distance, r: Reading)
    ensures multiset(IngestCity(table, city, dist))[r] ==
      if city.CityLocations? then Occurrences(table, city.runs, dist, r) else 0
  {
    if city.CityLocations? {
      IngestMultiplicity(table, city.runs, dist, r);
    }
  }

  /** Occurrences in a concatenation add up. */
  lemma CountAppend(whole: seq<Reading>, a: seq<Reading>, b: seq<Reading>, r: Reading)
    requires whole == a + b
    ensures multiset(whole)[r] == multiset(a)[r] + multiset(b)[r]
  {
  }

  /** One row per storing location across the whole run, duplicates
      included. */
  lemma {:induction false} RunMultiplicity(table: seq<Station>, cities: seq<CityFetch>, dist: Distance, r: Reading)
    ensures multiset(RunIngestOnce(table, cities, dist))[r] == RunOccurrences(table, cities, dist, r)
    decreases |cities|
  {
    if |cities| > 0 {
      var n := |cities|;
      var init, last := cities[..n - 1], cities[n - 1];
      var prev, cur := RunIngestOnce(table, init, dist), IngestCity(table, last, dist);
      CountAppend(RunIngestOnce(table, cities, dist), prev, cur, r);
      RunMultiplicity(table, init, dist, r);
      CityMultiplicity(table, last, dist, r);
    }
  }
}

=== FILE: sequences.dfy ===
/** Searching a sequence in order. */
module Sequences {
  import opened Wrappers

  /** Position of the first element satisfying `p`. This is what
      `Array.prototype.find` picks, and what a `LIMIT 1` query picks
      when the table is read in row order. */
  function FindFirst<T>(s: seq<T>, p: T -> bool): (r: Option<nat>)
    ensures r.Some? ==> r.value < |s| && p(s[r.value])
    ensures r.Some? ==> forall j :: 0 <= j < r.value ==> !p(s[j])
    ensures r.None? <==> forall j :: 0 <= j < |s| ==> !p(s[j])
    decreases |s|
  {
    if |s| == 0 then None
    else if p(s[0]) then Some(0)
    else
      match FindFirst(s[1..], p)
      case None => None
      case Some(k) => Some(k + 1)
  }
}

=== FILE: stations.dfy ===
/** The `stations` table shared by the directory import and the ingestion run. */
module Stations {

  /** One row of the station table: id, name, coordinates and provenance. */
  datatype Station = Station(id: int, name: string, lat: real, lon: real, source: string)

  /** Some row carries exactly this name, compared case-sensitively. */
  predicate HasName(table: seq<Station>, name: string) {
    exists i :: 0 <= i < |table| && table[i].name == name
  }

  /** No two rows share a name. */
  predicate UniqueNames(table: seq<Station>) {
    forall i, j :: 0 <= i < j < |table| ==> table[i].name != table[j].name
  }
}

=== FILE: text.dfy ===
/** Character-level helpers: ASCII lower-casing, substring search and
    decimal notation of natural numbers. */
module Text {

  function LowerChar(c: char): char {
    if 'A' <= c <= 'Z' then (c as int + 32) as char else c
  }

  /** Lower-casing as `LOWER(...)` and `toLowerCase()` do on ASCII letters. */
  function ToLower(s: string): (r: string)
    ensures |r| == |s|
    ensures forall i :: 0 <= i < |s| ==> r[i] == LowerChar(s[i])
  {
    seq(|s|, i requires 0 <= i < |s| => LowerChar(s[i]))
  }

  /** `needle` occurs as a contiguous block of `hay` (SQL `LIKE '%needle%'`
      without wildcard characters inside `needle`). */
  predicate Contains(hay: string, needle: string) {
    exists i :: 0 <= i <= |hay| - |needle| && OccursAt(hay, needle, i)
  }

  /** `needle` starts at position `i` of `hay`. */
  predicate OccursAt(hay: string, needle: string, i: int)
    requires 0 <= i <= |hay| - |needle|
  {
    hay[i..i + |needle|] == needle
  }

  lemma ContainsItself(s: string)
    ensures Contains(s, s)
  {
    assert OccursAt(s, s, 0);
  }

  predicate IsDigit(c: char) {
    '0' <= c <= '9'
  }

  predicate AllDigits(s: string) {
    forall i :: 0 <= i < |s| ==> IsDigit(s[i])
  }

  function DigitChar(d: nat): (c: char)
    requires d < 10
    ensures IsDigit(c)
  {
    ('0' as int + d) as char
  }

  function DigitValue(c: char): (d: nat)
    requires IsDigit(c)
    ensures d < 10 && DigitChar(d) == c
  {
    c as int - '0' as int
  }

  /** Decimal notation of `n`, as JavaScript's template literal prints a
      non-negative integer. */
  function NatToDecimal(n: nat): (r: string)
    ensures |r| > 0 && AllDigits(r)
    decreases n
  {
    if n < 10 then [DigitChar(n)] else NatToDecimal(n / 10) + [DigitChar(n % 10)]
  }

  /** Value of a string of decimal digits. */
  function DecimalValue(s: string): nat
    requires AllDigits(s)
    decreases |s|
  {
    if |s| == 0 then 0 else DecimalValue(s[..|s| - 1]) * 10 + DigitValue(s[|s| - 1])
  }

  /** Reading the decimal notation back gives the number again. */
  lemma {:induction false} DecimalRoundTrip(n: nat)
    ensures DecimalValue(NatToDecimal(n)) == n
    decreases n
  {
    if n >= 10 {
      var s := NatToDecimal(n);
      assert s[..|s| - 1] == NatToDecimal(n / 10);
      DecimalRoundTrip(n / 10);
    }
  }
}

=== FILE: wrappers.dfy ===
/** The optional value used wherever the source has `null`/`undefined`. */
module Wrappers {

  datatype Option<+T> = None | Some(value: T)
}
